=== FILE: README.md ===
# Fenikkusu watchlist and background jobs, in Dafny

This project models the decision logic of the Fenikkusu stock-watchlist app.
It has two parts.

- **The watchlist store.** A state machine over the watchlist collection. The
  server actions add, remove, list and symbols-by-e-mail work on it.
- **The background jobs.** Pure decision logic of three jobs:
  - the five-minute price refresh: batching, per-symbol update records, and
    applying them to the store;
  - the daily news digest: article selection, fallback symbols, summary
    choice and the send filter;
  - the sign-up welcome e-mail: intro fallback.

Every outside outcome is an input value. That covers the session lookup, the
database's health, the two market-data replies, the news service, the AI
steps, the random shuffle and today's date. In the digest each user has
outcomes of their own (`DailyDigest.Outcomes`), so one user's news request
can fail while another's succeeds.

| file | module | what it holds |
|---|---|---|
| `common.dfy` | `Common` | `Option`, ASCII upper/lower-casing, the AI reply and its text-or-fallback rule |
| `market_data.dfy` | `MarketData` | JavaScript number truthiness, the quote and metrics replies, `Derive` (which fields a reply sets, and when processing throws) |
| `watchlist.dfy` | `Watchlist` | the store `map<Key(userId, symbol), Entry>` and the four actions |
| `batching.dfy` | `Batching` | batches of ten, the fetch/pause schedule, and the loop that produces them |
| `price_refresh.dfy` | `PriceRefresh` | distinct symbols, the fetch step, `updateMany`, the write step, the whole job |
| `daily_digest.dfy` | `DailyDigest` | per-user articles, fallback pick, summaries, sends, the whole job |
| `welcome.dfy` | `Welcome` | the profile text given to the AI, the intro fallback, the welcome job |

Modelling choices:

- JavaScript numbers are reals. A JSON number field is `Undefined`, `Null` or
  `Num(v)`; it is truthy when it is a non-zero number.
- A formatted string (`toFixed`) is kept as a `Display` value. It holds the
  amount shown and the sign decision, not the digits.
- An update payload field is `Keep` (key absent) or `Put(v)`. Here `v` may be
  `null`. A key set to `null` still counts as a key, and `$set` then writes
  `null`.
- `modifiedCount` is the number of entries whose modelled contents the `$set`
  actually changed. Formatted fields are compared by exact amount, not by
  their rounded text (see "## Left out").
- Within a batch the fetches run concurrently. The model runs them in batch
  order. A pause is a `Pause` event in a trace.

Where the code and the design notes disagree, the model follows the code:

- A user with no articles is still sent a digest. The digest carries the
  sentence "No market news available at this time.". Only a throwing AI
  summary step yields `null` and skips the user (`UserWithoutArticlesGetsNoNewsDigest`).
- The welcome intro falls back to the fixed sentence only when the AI reply
  has no text. If the inference step itself throws, nothing catches it and
  the job fails (`InferFailed`).
- A quote reply whose `c` is `null` passes the `!== undefined` test, and then
  `null.toFixed` throws.
  - In the refresh job this drops the symbol.
  - In the add action the inner `catch` swallows it. The entry is saved with
    `currentPrice` null and `changePercent` already set to `dp || 0`.

## Model

| member | source | states |
|---|---|---|
| `Common.TextOr` | lib/inngest/functions.ts:106-107 | the text taken from an AI reply is its non-empty text, and otherwise the fallback |
| `Common.Upper` | lib/actions/watchlist.actions.ts:46 | the upper-cased symbol has no lower-case letter and spells the same text as the input when letter case is ignored |
| `Common.Lower` | lib/actions/watchlist.actions.ts:15 | the lower-cased e-mail has no upper-case letter and spells the same text as the input when letter case is ignored |
| `Common.UpperEqualIffEqualIgnoringCase` | lib/actions/watchlist.actions.ts:44-47 | two symbols upper-case to the same key exactly when they differ only in letter case |
| `Common.UpperIsNormal` | lib/actions/watchlist.actions.ts:103-106 | an upper-cased symbol has no lower-case letter and upper-casing it again changes nothing |
| `MarketData.Derive` | lib/actions/watchlist.actions.ts:76-95 | the four price fields are set only from an ok quote with `c` defined; `changePercent` is `dp` when truthy and 0 otherwise; `changeFormatted` is null when `d` is falsy and carries '+' exactly when `d` > 0; the fundamentals fields are set (possibly null) only when the metrics reply has a `metric` object and nothing threw first; processing throws exactly on a rejected fetch, unparseable JSON, or `c` null |
| `MarketData.Contributes` | lib/inngest/functions.ts:179-207 | a symbol gets an update record exactly when nothing threw and a reply assigned at least one key |
| `Watchlist.StockData` | lib/actions/watchlist.actions.ts:54-100 | without an API key, or when the fetch rejects, every market field of the new entry stays null; with a key, the new entry gets every field the replies assigned before any throw, as `Derive` describes them, since the inner `catch` keeps the partial work |
| `Watchlist.Add` | lib/actions/watchlist.actions.ts:30-122 | without a session: "User not authenticated" and no change; "Stock already in watchlist" exactly when a signed-in user already holds the upper-cased symbol and the database is reachable; "Failed to add stock to watchlist" exactly when the session lookup throws, the database is unreachable, or the save fails for a new symbol; every failure leaves the store unchanged; otherwise exactly one entry is inserted under the upper-cased symbol with the given company, everything else is unchanged, and the market data never decides the response; with an API key the new entry carries the fields `Derive` assigns, and without one (or on a rejected fetch) they are all null |
| `Watchlist.AddKeepsFieldsSetBeforeThrow` | lib/actions/watchlist.actions.ts:77-100 | for a quote whose `c` is null, the saved entry has a null price, the change percentage `dp \|\| 0`, and null in every other market field |
| `Watchlist.Remove` | lib/actions/watchlist.actions.ts:148-174 | without a session: "User not authenticated"; "Stock not found in watchlist" exactly when a signed-in user does not hold the upper-cased symbol and the database works; "Failed to remove stock from watchlist" exactly when the session lookup throws or the database fails; failures change nothing; success deletes exactly that entry |
| `Watchlist.List` | lib/actions/watchlist.actions.ts:124-146 | without a session: "User not authenticated"; otherwise exactly the stored entries whose user id is the session user's, with their stored contents |
| `Watchlist.FindByEmail` | lib/actions/watchlist.actions.ts:15 | the lookup yields the first user stored with exactly that e-mail, and nothing when no user has it |
| `Watchlist.SymbolsByEmail` | lib/actions/watchlist.actions.ts:6-28 | never fails; it gives the empty set for an empty e-mail, an unreachable database, no user under the lower-cased e-mail, or an empty user id (`id`, else `_id`); otherwise that user's symbols |
| `Watchlist.AddTwiceFails` | lib/actions/watchlist.actions.ts:44-51 | after a successful add, adding the same symbol in any letter case fails with "Stock already in watchlist" and leaves the store as it is |
| `Watchlist.RemoveUndoesAdd` | lib/actions/watchlist.actions.ts:160-169 | removing a just-added symbol, in any letter case, succeeds and restores the store exactly |
| `Watchlist.RemoveThenList` | lib/actions/watchlist.actions.ts:137-141 | after a successful remove, the caller's listing is the earlier listing minus exactly the removed entry |
| `Watchlist.ActionsPreserveNormalised` | lib/actions/watchlist.actions.ts:103-106 | add and remove keep every key's user id non-empty and its symbol upper-case |
| `Watchlist.SymbolsByEmailIgnoresCase` | lib/actions/watchlist.actions.ts:15 | two spellings of an e-mail that differ only in letter case find the same symbols |
| `Common.LowerEqualIffEqualIgnoringCase` | lib/actions/watchlist.actions.ts:15 | two e-mails lower-case to the same text exactly when they differ only in letter case |
| `Batching.RunBatches` | lib/inngest/functions.ts:168-216 | the loop with `i += 10`, `slice(i, i + 10)` and a pause when `i + 10 < n` produces exactly the reference batches and schedule |
| `Batching.BatchesPartition` | lib/inngest/functions.ts:168-170 | every batch holds 1 to 10 symbols, and the batches concatenated are the symbol list in order |
| `Batching.BatchCount` | lib/inngest/functions.ts:168-170 | there are exactly ceil(n / 10) batches |
| `Batching.BatchIsSlice` | lib/inngest/functions.ts:169-170 | batch k is the slice from 10k to min(10k + 10, n) |
| `Batching.ScheduleCounts` | lib/inngest/functions.ts:212-215 | every symbol is fetched once, in order; for n > 0 there are exactly ceil(n / 10) - 1 pauses; with no symbols nothing happens |
| `Batching.PausesSeparateBatches` | lib/inngest/functions.ts:212-215 | no pause opens or ends the schedule or follows another pause, so pauses fall only between batches |
| `PriceRefresh.DistinctSymbols` | lib/inngest/functions.ts:143-150 | the distinct-symbol list holds every symbol of the store exactly once |
| `PriceRefresh.FetchBatch` | lib/inngest/functions.ts:172-210 | a batch records an update for exactly its contributing symbols; a throwing symbol is skipped without affecting the others |
| `PriceRefresh.FetchPrices` | lib/inngest/functions.ts:157-219 | a symbol is a key of `updates` exactly when it was fetched and contributes, with the derived record as value; the trace is the batch schedule |
| `PriceRefresh.UpdateMany` | lib/inngest/functions.ts:232-236 | `updateMany` patches every entry of the symbol with the record (a `null` key writes `null`, an absent key keeps the old value), leaves other symbols' entries and every company name alone, and its `modifiedCount` is the number of entries whose contents changed: at most the number of entries, and zero exactly when the store is unchanged |
| `PriceRefresh.ModifiedStep` | lib/inngest/functions.ts:230-240 | each further successful write adds its own changed entries to the count, and no earlier write touched them |
| `PriceRefresh.WriteUpdates` | lib/inngest/functions.ts:222-243 | in any key order, the store ends with every successfully written symbol's entries patched and nothing else changed; `updatedCount` is the number of changed entries; `totalSymbols` is the number of keys of `updates` |
| `PriceRefresh.UpdateWatchlistPrices` | lib/inngest/functions.ts:137-254 | an unreachable database or a missing key fails before any fetch or write; no symbols gives "No symbols to update" with no fetch or write; otherwise each symbol is fetched once with ceil(N/10) - 1 pauses, counts and store are as above, keys never change, and if no symbol yields fields the store is untouched |
| `DailyDigest.FallbackSymbols` | lib/inngest/functions.ts:75-76 | a fallback pick is two different symbols of the eight-symbol pool |
| `DailyDigest.EveryPairIsPicked` | lib/inngest/functions.ts:75-76 | every ordered pair of different pool symbols is the outcome of some pick |
| `DailyDigest.Capped` | lib/inngest/functions.ts:72 | at most six articles are kept: a prefix of the reply, which is six articles long unless it is the whole reply |
| `DailyDigest.PrepareUser` | lib/inngest/functions.ts:67-85 | a user gets at most 6 articles; the first request is the user's symbols, with a reply of its own; a second request happens exactly when the first did not throw and returned no article, and it asks for two different pool symbols; a throwing request leaves the user with no articles |
| `DailyDigest.Summarize` | lib/inngest/functions.ts:93-118 | the digest text is null exactly when there are articles and the AI step throws; it is the no-news sentence when there are no articles or the AI text is missing or empty; otherwise it is the AI text; it is never empty |
| `DailyDigest.Sends` | lib/inngest/functions.ts:122-131 | an e-mail dated today goes out for exactly the summaries whose text is truthy, with that text |
| `DailyDigest.SendsCount` | lib/inngest/functions.ts:124-130 | the number of e-mails equals the number of summaries with text |
| `DailyDigest.SendDailyNewsSummary` | lib/inngest/functions.ts:54-135 | no users: failure; otherwise, per user and in input order, the user's articles are those `PrepareUser` gathers (at most 6, the fallback pick, none after a throwing request) and the summary is the one `Summarize` chooses for them (null exactly when the user has articles and the AI step throws); the e-mails are those `Sends` produces, so a digest with the summary's text goes to a user exactly when the summary is not null |
| `DailyDigest.UserWithoutArticlesGetsNoNewsDigest` | lib/inngest/functions.ts:110-112 | a user left with no articles is still sent the no-news sentence |
| `DailyDigest.OtherUsersDoNotMatter` | lib/inngest/functions.ts:67-118 | a user's articles and summary depend only on that user's own symbols and outcomes, so another user's failing request never changes them |
| `Welcome.ProfileAsWrittenLosesIndustry` | lib/inngest/functions.ts:13-18 | in the profile as written, the country, the goals and the risk tolerance read back under their own labels, but no line carries the "Preferred Industry" label: the industry sits on a second "Investment Goals" line, so the four answers cannot all be read back |
| `Welcome.ProfileAsWrittenExample` | lib/inngest/functions.ts:13-18 | for goals "Growth" and industry "Technology", the profile shows two "Investment Goals" lines with different values |
| `Welcome.Profile` | lib/inngest/functions.ts:13-18 | the corrected profile has four distinctly labelled lines, and reading it back gives the four answers |
| `Welcome.SendSignUpEmail` | lib/inngest/functions.ts:13-44 | the AI step is given the profile as written (with the repeated label); the job fails only when inference throws; otherwise the e-mail goes to the event's address and name, and the intro is the non-empty AI text, else the fixed welcome sentence |
| `Welcome.SwappedGoalsAndIndustryLookAlike` | lib/inngest/functions.ts:13-44 | swapping a sign-up's goals and industry gives the AI step the same profile lines in another order, so an AI step that ignores line order sends both users the same e-mail; the corrected profile differs whenever the two answers differ |
| `Welcome.SendSignUpEmailNeverShowsIndustryLabel` | lib/inngest/functions.ts:13-22 | the profile the job sends to the AI step has no "Preferred Industry" line, so an AI step that answers differently when it sees one always gives its other answer |

## Findings

| source | as written | input that shows it | evidently intended | confidence | as-written member | corrected member |
|---|---|---|---|---|---|---|
| lib/inngest/functions.ts:17 | the line that carries `preferredIndustry` is labelled "Investment Goals", the same label as line 15 | goals "Growth", industry "Technology": the prompt lists two investment goals and no industry | label the line "Preferred Industry" | high, by reading; not executed | `Welcome.ProfileAsWrittenLosesIndustry` | `Welcome.Profile` |

`Welcome.SendSignUpEmail` models the job as written, so it passes the mislabelled profile to the AI step. `Welcome.Profile` is the corrected profile, and `Welcome.LabelledLinesReadBack` proves that all four answers read back from it.

## Left out

- The workflow framework: `step.run`, `step.ai.infer` wiring, cron and event triggers, retries, and step result serialisation. `lib/inngest/client.ts` and `app/api/inngest/route.ts` only register functions.
- Finnhub HTTP, Gemini, nodemailer and MongoDB calls. Each is an input outcome (reply kind, value, or throws). The database connection is the `Db` value or the `dbReachable` flag.
- `Promise.all` concurrency and the 100 ms `setTimeout`. Batches run in sequence, and a pause is a trace event.
- `toFixed` digits, rounding and NaN. The division by 1,000,000,000 for market cap is kept exactly, but the decimal text is not.
- `toUpperCase` and `toLowerCase` beyond ASCII. For example, `ß` becomes `SS` in JavaScript, and the model leaves such characters as they are.
- `Watchlist.List`: returns a map keyed by (user, symbol), so the order of the `find` result is not modelled; the listing holds exactly the same entries.
- `Watchlist.SymbolsByEmail`: returns a set, because the database's result order is not modelled. For the same reason the digest takes each user's symbol list as an input instead of calling it.
- The check-then-insert race between two concurrent adds. Actions run one at a time. The map key gives (user, symbol) uniqueness.
- Failures of `getAllUsersForNewsEmail`, `sendNewsSummaryEmail` and `sendWelcomeEmail`. These propagate to the framework and end the job. Every send in the model succeeds.
- `PriceRefresh.UpdateMany`: a formatted field keeps its exact amount, while the code stores a two-decimal string. Two amounts that round to the same text, such as market caps of 2.001 and 2.002 billion, count as a change in the model; the database would not count that write as a modification. So `updatedCount` can be higher than the code's count.
- `PriceRefresh.WriteUpdates`: a connection loss inside the write step is modelled only as per-symbol write failures (`failedWrites`), and a failed `updateMany` changes nothing. A partial write is not modelled.
- `PriceRefresh.UpdateWatchlistPrices`: a database failure between the distinct query and the write step is not modelled apart from per-symbol write failures.
- `Welcome.SendSignUpEmail`: the prompt templates (`lib/inngest/prompts`) are not part of this model. The profile is passed to the AI step as labelled lines.
- `app/watchlist/page.tsx` ("N/A" display fallbacks), `lib/actions/auth.actions.ts` and `app/(auth)/sign-in/page.tsx`: UI and auth wrappers.
- The unreachable `return` after the welcome e-mail is sent (lib/inngest/functions.ts:46-49).
- Document fields other than those the actions read or write, such as `_id` and timestamps.

=== FILE: batching.dfy ===
/**
 The batching plan of the price-refresh job: the distinct symbols are taken
 ten at a time, every symbol of a batch is fetched, and a pause separates one
 batch from the next. Fetches within a batch run concurrently; the model
 keeps them in batch order and records the pause as an event, not as time.
 */
module Batching {
  import opened Common

  const BatchSize: nat := 10

  /** The number of batches `n` items need. */
  function CeilDiv(n: nat, d: nat): nat
    requires d > 0
  {
    (n + d - 1) / d
  }

  /** The items in batches of `BatchSize`, the last one possibly shorter. */
  function Batches<T>(s: seq<T>): seq<seq<T>>
    decreases |s|
  {
    if |s| == 0 then []
    else if |s| <= BatchSize then [s]
    else [s[..BatchSize]] + Batches(s[BatchSize..])
  }

  function Flatten<T>(bs: seq<seq<T>>): seq<T> {
    if |bs| == 0 then [] else bs[0] + Flatten(bs[1..])
  }

  /** What the job does, in order. */
  datatype Event<T> = Fetch(item: T) | Pause

  /** One fetch event per item of the batch, in order. */
  function Fetches<T>(batch: seq<T>): seq<Event<T>> {
    seq(|batch|, i requires 0 <= i < |batch| => Fetch(batch[i]))
  }

  /** The reference schedule: each batch's fetches, with a pause after a
      batch only when more items follow. */
  function Schedule<T>(s: seq<T>): seq<Event<T>>
    decreases |s|
  {
    if |s| == 0 then []
    else if |s| <= BatchSize then Fetches(s)
    else Fetches(s[..BatchSize]) + [Pause] + Schedule(s[BatchSize..])
  }

  function PauseCount<T>(t: seq<Event<T>>): nat {
    if |t| == 0 then 0 else (if t[0].Pause? then 1 else 0) + PauseCount(t[1..])
  }

  /** The items fetched, in order, pauses dropped. */
  function Fetched<T>(t: seq<Event<T>>): seq<T> {
    if |t| == 0 then []
    else if t[0].Fetch? then [t[0].item] + Fetched(t[1..])
    else Fetched(t[1..])
  }

  /** Items not yet batched once the loop index has reached `i`. */
  function Rest<T>(s: seq<T>, i: nat): seq<T> {
    if i < |s| then s[i..] else []
  }

  // ---------------------------------------------------------------------------
  // The loop
  // ---------------------------------------------------------------------------

  /** `for (let i = 0; i < n; i += batchSize)`: slices `s.slice(i, i + 10)`
      and pauses when `i + batchSize < n`. The batches and the events are
      those of the reference definitions. */
  method RunBatches<T>(s: seq<T>) returns (batches: seq<seq<T>>, trace: seq<Event<T>>)
    ensures batches == Batches(s)
    ensures trace == Schedule(s)
  {
    batches, trace := [], [];
    var i := 0;
    while i < |s|
      invariant batches + Batches(Rest(s, i)) == Batches(s)
      invariant trace + Schedule(Rest(s, i)) == Schedule(s)
    {
      var end := Min(i + BatchSize, |s|);
      var batch := s[i..end];
      BatchStep(s, i);
      ghost var restBatches, restSchedule := Batches(Rest(s, i + BatchSize)), Schedule(Rest(s, i + BatchSize));
      var events := Fetches(batch) + (if i + BatchSize < |s| then [Pause] else []);
      assert batches + ([batch] + restBatches) == (batches + [batch]) + restBatches;
      assert trace + (events + restSchedule) == (trace + events) + restSchedule;
      batches := batches + [batch];
      trace := trace + events;
      i := i + BatchSize;
    }
  }

  /** One turn of the loop takes one batch off the items still to batch. */
  lemma BatchStep<T>(s: seq<T>, i: nat)
    requires i < |s|
    ensures var batch := s[i..Min(i + BatchSize, |s|)];
      && Batches(Rest(s, i)) == [batch] + Batches(Rest(s, i + BatchSize))
      && Schedule(Rest(s, i)) ==
           Fetches(batch) + (if i + BatchSize < |s| then [Pause] else []) + Schedule(Rest(s, i + BatchSize))
  {
    var rest := Rest(s, i);
    var batch := s[i..Min(i + BatchSize, |s|)];
    if |rest| > BatchSize {
      assert rest[..BatchSize] == batch;
      assert rest[BatchSize..] == Rest(s, i + BatchSize);
    } else {
      assert rest == batch && Rest(s, i + BatchSize) == [];
      assert Fetches(batch) + [] + [] == Fetches(batch);
    }
  }

  // ---------------------------------------------------------------------------
  // Properties of the plan
  // ---------------------------------------------------------------------------

  /** The batches are non-empty, hold at most ten items, and together are the
      items in order. */
  lemma {:induction false} BatchesPartition<T>(s: seq<T>)
    ensures Flatten(Batches(s)) == s
    ensures forall k :: 0 <= k < |Batches(s)| ==> 0 < |Batches(s)[k]| <= BatchSize
    decreases |s|
  {
    if |s| > BatchSize {
      BatchesPartition(s[BatchSize..]);
      assert Flatten(Batches(s)) == s[..BatchSize] + Flatten(Batches(s[BatchSize..]));
      assert s == s[..BatchSize] + s[BatchSize..];
    } else if |s| > 0 {
      assert Flatten(Batches(s)) == s + Flatten<T>([]);
    }
  }

  /** There are exactly ceil(n / 10) batches. */
  lemma {:induction false} BatchCount<T>(s: seq<T>)
    ensures |Batches(s)| == CeilDiv(|s|, BatchSize)
    decreases |s|
  {
    if |s| > BatchSize {
      BatchCount(s[BatchSize..]);
    }
  }

  /** Batch k is the slice of items 10k up to 10k + 10, clamped at the end. */
  lemma {:induction false} BatchIsSlice<T>(s: seq<T>, k: nat)
    requires k < |Batches(s)|
    ensures k * BatchSize < |s|
    ensures Batches(s)[k] == s[k * BatchSize .. Min(k * BatchSize + BatchSize, |s|)]
    decreases |s|
  {
    if k > 0 {
      assert |s| > BatchSize;
      var tail := s[BatchSize..];
      assert Batches(s) == [s[..BatchSize]] + Batches(tail);
      BatchIsSlice(tail, k - 1);
      var lo := (k - 1) * BatchSize;
      var hi := Min(lo + BatchSize, |tail|);
      assert lo + BatchSize == k * BatchSize;
      assert hi + BatchSize == Min(k * BatchSize + BatchSize, |s|);
      assert Batches(s)[k] == Batches(tail)[k - 1] == tail[lo..hi];
      DropThenSlice(s, BatchSize, lo, hi);
    } else {
      assert |s| > 0;
    }
  }

  lemma DropThenSlice<T>(s: seq<T>, d: nat, lo: nat, hi: nat)
    requires d <= |s| && lo <= hi <= |s| - d
    ensures s[d..][lo..hi] == s[d + lo..d + hi]
  {
    assert |s[d..][lo..hi]| == hi - lo;
    forall i | 0 <= i < hi - lo
      ensures s[d..][lo..hi][i] == s[d + lo..d + hi][i]
    {
    }
  }

  lemma {:induction false} PauseCountAppend<T>(a: seq<Event<T>>, b: seq<Event<T>>)
    ensures PauseCount(a + b) == PauseCount(a) + PauseCount(b)
    ensures Fetched(a + b) == Fetched(a) + Fetched(b)
    decreases |a|
  {
    if |a| > 0 {
      PauseCountAppend(a[1..], b);
      assert (a + b)[1..] == a[1..] + b;
    } else {
      assert a + b == b;
    }
  }

  lemma {:induction false} FetchesHaveNoPause<T>(batch: seq<T>)
    ensures PauseCount(Fetches(batch)) == 0
    ensures Fetched(Fetches(batch)) == batch
    decreases |batch|
  {
    if |batch| > 0 {
      FetchesHaveNoPause(batch[1..]);
      assert Fetches(batch)[1..] == Fetches(batch[1..]);
    }
  }

  /** The schedule fetches every item once, in order, and pauses one time
      fewer than there are batches: ceil(n / 10) - 1 pauses for n > 0. */
  lemma {:induction false} ScheduleCounts<T>(s: seq<T>)
    ensures Fetched(Schedule(s)) == s
    ensures |s| > 0 ==> PauseCount(Schedule(s)) == CeilDiv(|s|, BatchSize) - 1
    ensures |s| == 0 ==> Schedule(s) == []
    decreases |s|
  {
    BatchCount(s);
    if |s| > BatchSize {
      ScheduleCounts(s[BatchSize..]);
      FetchesHaveNoPause(s[..BatchSize]);
      PauseCountAppend(Fetches(s[..BatchSize]), [Pause]);
      PauseCountAppend(Fetches(s[..BatchSize]) + [Pause], Schedule(s[BatchSize..]));
      assert PauseCount<T>([Pause]) == 1;
      assert Fetched<T>([Pause]) == [];
      assert s == s[..BatchSize] + s[BatchSize..];
    } else if |s| > 0 {
      FetchesHaveNoPause(s);
    }
  }

  /** A pause never opens or closes the schedule and never follows another
      pause: each one sits between two batches. */
  lemma {:induction false} PausesSeparateBatches<T>(s: seq<T>)
    ensures |Schedule(s)| > 0 ==> Schedule(s)[0].Fetch? && Schedule(s)[|Schedule(s)| - 1].Fetch?
    ensures forall j :: 0 < j < |Schedule(s)| && Schedule(s)[j].Pause? ==> Schedule(s)[j - 1].Fetch?
    ensures forall j :: 0 <= j < |Schedule(s)| - 1 && Schedule(s)[j].Pause? ==> Schedule(s)[j + 1].Fetch?
    decreases |s|
  {
    if |s| > BatchSize {
      var head := Fetches(s[..BatchSize]) + [Pause];
      var tail := Schedule(s[BatchSize..]);
      PausesSeparateBatches(s[BatchSize..]);
      assert Schedule(s) == head + tail;
      assert |tail| > 0;
      forall j | 0 <= j < |Schedule(s)| - 1 && Schedule(s)[j].Pause?
        ensures Schedule(s)[j + 1].Fetch?
      {
        if j >= |head| {
          assert Schedule(s)[j] == tail[j - |head|];
          assert Schedule(s)[j + 1] == tail[j + 1 - |head|];
        }
      }
      forall j | 0 < j < |Schedule(s)| && Schedule(s)[j].Pause?
        ensures Schedule(s)[j - 1].Fetch?
      {
        if j > |head| {
          assert Schedule(s)[j] == tail[j - |head|];
          assert Schedule(s)[j - 1] == tail[j - 1 - |head|];
        }
      }
    }
  }
}

=== FILE: common.dfy ===
/**
 Values shared by the watchlist actions and the background jobs: an optional
 value standing for JavaScript's `null`, the ASCII case mappings that
 `toUpperCase` and `toLowerCase` perform on ticker symbols and e-mail
 addresses, and the reply of a text-generation step.
 */
module Common {

  /** `null` (None) or a present value. */
  datatype Option<+T> = None | Some(value: T)

  function Min(a: int, b: int): int {
    if a <= b then a else b
  }

  /** No element of `s` occurs twice. */
  predicate NoDuplicates<T(==)>(s: seq<T>) {
    forall i, j :: 0 <= i < j < |s| ==> s[i] != s[j]
  }

  /** The reply of an AI inference step, reduced to what the jobs read from it:
      the text of the first part of the first candidate, when there is one. */
  datatype AiReply =
    | AiThrew                        // the inference step rejected
    | AiAnswered(text: Option<string>)

  /** The text a job takes from a reply, or `fallback` when the reply carries
      no text or an empty one (`(part && 'text' in part ? part.text : null) || fallback`). */
  function TextOr(text: Option<string>, fallback: string): (r: string)
    ensures r == fallback || (text == Some(r) && r != "")
    ensures text.Some? && text.value != "" ==> r == text.value
  {
    if text.Some? && text.value != "" then text.value else fallback
  }

  // ---------------------------------------------------------------------------
  // ASCII case mapping
  // ---------------------------------------------------------------------------

  predicate IsLowerLetter(c: char) { 'a' <= c <= 'z' }

  predicate IsUpperLetter(c: char) { 'A' <= c <= 'Z' }

  function UpperChar(c: char): char {
    if IsLowerLetter(c) then (c as int - 'a' as int + 'A' as int) as char else c
  }

  function LowerChar(c: char): char {
    if IsUpperLetter(c) then (c as int - 'A' as int + 'a' as int) as char else c
  }

  /** `s.toUpperCase()` on ASCII text: the same text, ignoring letter case,
      with no lower-case letter left. */
  function Upper(s: string): (r: string)
    ensures IsUpperCase(r)
    ensures EqualIgnoringCase(s, r)
  {
    seq(|s|, i requires 0 <= i < |s| => UpperChar(s[i]))
  }

  /** `s.toLowerCase()` on ASCII text: the same text, ignoring letter case,
      with no upper-case letter left. */
  function Lower(s: string): (r: string)
    ensures IsLowerCase(r)
    ensures EqualIgnoringCase(s, r)
  {
    seq(|s|, i requires 0 <= i < |s| => LowerChar(s[i]))
  }

  /** No character of `s` is a lower-case ASCII letter. */
  predicate IsUpperCase(s: string) {
    forall i :: 0 <= i < |s| ==> !IsLowerLetter(s[i])
  }

  /** No character of `s` is an upper-case ASCII letter. */
  predicate IsLowerCase(s: string) {
    forall i :: 0 <= i < |s| ==> !IsUpperLetter(s[i])
  }

  /** `c` and `d` are the same character, or the two cases of one ASCII letter. */
  predicate SameLetter(c: char, d: char) {
    || c == d
    || (IsLowerLetter(c) && d as int == c as int - 32)
    || (IsUpperLetter(c) && d as int == c as int + 32)
  }

  /** `a` and `b` spell the same text when letter case is ignored. */
  predicate EqualIgnoringCase(a: string, b: string) {
    |a| == |b| && forall i :: 0 <= i < |a| ==> SameLetter(a[i], b[i])
  }

  /** Upper-casing yields text with no lower-case letter and is idempotent,
      so a symbol stored upper-cased is its own normal form. */
  lemma UpperIsNormal(s: string)
    ensures IsUpperCase(Upper(s))
    ensures Upper(Upper(s)) == Upper(s)
  {
  }

  /** Two spellings upper-case to the same symbol exactly when they differ
      only in letter case. */
  lemma UpperEqualIffEqualIgnoringCase(a: string, b: string)
    ensures Upper(a) == Upper(b) <==> EqualIgnoringCase(a, b)
  {
    if Upper(a) == Upper(b) {
      forall i | 0 <= i < |a|
        ensures SameLetter(a[i], b[i])
      {
        assert UpperChar(a[i]) == UpperChar(b[i]);
      }
    }
    if EqualIgnoringCase(a, b) {
      forall i | 0 <= i < |a|
        ensures Upper(a)[i] == Upper(b)[i]
      {
        assert SameLetter(a[i], b[i]);
      }
    }
  }

  /** Two spellings lower-case to the same text exactly when they differ only
      in letter case. */
  lemma LowerEqualIffEqualIgnoringCase(a: string, b: string)
    ensures Lower(a) == Lower(b) <==> EqualIgnoringCase(a, b)
  {
    if Lower(a) == Lower(b) {
      forall i | 0 <= i < |a|
        ensures SameLetter(a[i], b[i])
      {
        assert LowerChar(a[i]) == LowerChar(b[i]);
      }
    }
    if EqualIgnoringCase(a, b) {
      forall i | 0 <= i < |a|
        ensures Lower(a)[i] == Lower(b)[i]
      {
        assert SameLetter(a[i], b[i]);
      }
    }
  }
}

=== FILE: daily_digest.dfy ===
/**
 The daily news digest job: for each user, gather at most six articles about
 the user's watchlist symbols (or, when there are none, about two popular
 symbols picked at random), summarise them with an AI step, and e-mail the
 summary to every user who has one.

 The user list, each user's symbols, the news service, the random pick, the
 AI step and today's date are inputs.
 */
module DailyDigest {
  import opened Common

  datatype User = User(email: string, name: string)

  /** A news article; the job only counts and forwards them. */
  datatype Article = Article(headline: string, url: string)

  /** The result of asking the news service about a list of symbols. */
  datatype NewsReply = NewsThrew | NewsNull | News(articles: seq<Article>)

  const MaxArticles: nat := 6

  const PopularSymbols: seq<string> := ["AAPL", "MSFT", "GOOGL", "AMZN", "TSLA", "NVDA", "META", "NFLX"]

  const NoNews := "No market news available at this time."

  lemma PopularSymbolsDistinct()
    ensures NoDuplicates(PopularSymbols)
  {
  }

  /** The outcome of shuffling the pool at random and keeping the first two:
      `first` chooses the first symbol and `second` one of the seven others. */
  datatype Pick = Pick(first: nat, second: nat)

  /** The two fallback symbols a pick selects: two different pool symbols. */
  function FallbackSymbols(p: Pick): (r: seq<string>)
    ensures |r| == 2 && r[0] != r[1]
    ensures r[0] in PopularSymbols && r[1] in PopularSymbols
  {
    PopularSymbolsDistinct();
    var i := p.first % 8;
    var j := (i + 1 + p.second % 7) % 8;
    [PopularSymbols[i], PopularSymbols[j]]
  }

  /** Every ordered pair of different pool symbols is some pick's selection,
      so the picks model exactly the outcomes of the shuffle. */
  lemma EveryPairIsPicked(i: nat, j: nat)
    requires i < |PopularSymbols| && j < |PopularSymbols| && i != j
    ensures exists p :: FallbackSymbols(p) == [PopularSymbols[i], PopularSymbols[j]]
  {
    var second: nat := if i < j then j - i - 1 else j + 7 - i;
    assert second % 7 == second;
    assert i + 1 + second == (if i < j then j else j + 8);
    var p := Pick(i, second);
    assert p.first % 8 == i;
    assert (p.first % 8 + 1 + p.second % 7) % 8 == j;
    assert FallbackSymbols(p) == [PopularSymbols[i], PopularSymbols[j]];
  }

  /** `(articles || []).slice(0, 6)` for a reply that did not throw. */
  function Capped(reply: NewsReply): (r: seq<Article>)
    ensures |r| <= MaxArticles
    ensures reply.News? ==> r <= reply.articles && (|r| == MaxArticles || r == reply.articles)
    ensures !reply.News? ==> r == []
  {
    if reply.News? then reply.articles[..Min(MaxArticles, |reply.articles|)] else []
  }

  /** One user's entry of the `fetch-user-news` step, with the symbol lists
      the news service was asked about, in order. */
  datatype Prepared = Prepared(user: User, articles: seq<Article>, requests: seq<seq<string>>)

  /** What the outside world does for one user during a run: the reply to the
      first news request, the shuffle's pick, the reply to the fallback
      request (read only when that request is made) and the AI summary step.
      Every user gets outcomes of their own, so one user's request can fail
      while another's succeeds. */
  datatype Outcomes = Outcomes(firstNews: NewsReply, pick: Pick, fallbackNews: NewsReply, summary: AiReply)

  /** Gathering one user's articles. A throwing news request is caught and
      leaves the user with no articles; the fallback request is made only when
      the first one returned no article, and asks about two different pool
      symbols. */
  function PrepareUser(u: User, symbols: seq<string>, o: Outcomes): (p: Prepared)
    ensures p.user == u
    ensures |p.articles| <= MaxArticles
    ensures 1 <= |p.requests| <= 2
    ensures p.requests[0] == symbols
    ensures |p.requests| == 2 <==> !o.firstNews.NewsThrew? && |Capped(o.firstNews)| == 0
    ensures |p.requests| == 2 ==>
      && |p.requests[1]| == 2 && p.requests[1][0] != p.requests[1][1]
      && p.requests[1][0] in PopularSymbols && p.requests[1][1] in PopularSymbols
    ensures var last := if |p.requests| == 1 then o.firstNews else o.fallbackNews;
      && (last.NewsThrew? ==> p.articles == [])
      && (!last.NewsThrew? ==> p.articles == Capped(last))
  {
    if o.firstNews.NewsThrew? then Prepared(u, [], [symbols])
    else if |Capped(o.firstNews)| > 0 then Prepared(u, Capped(o.firstNews), [symbols])
    else
      var fallback := FallbackSymbols(o.pick);
      Prepared(u, if o.fallbackNews.NewsThrew? then [] else Capped(o.fallbackNews), [symbols, fallback])
  }

  /** One user's entry of the summaries list: the digest text, or null. */
  datatype Summary = Summary(user: User, newsContent: Option<string>)

  /** The digest text for one user. With articles, the AI reply's text, or the
      no-news sentence when the reply has none; null only when the AI step
      throws. Without articles, the no-news sentence. */
  function Summarize(p: Prepared, reply: AiReply): (s: Summary)
    ensures s.user == p.user
    ensures s.newsContent.None? <==> |p.articles| > 0 && reply.AiThrew?
    ensures |p.articles| == 0 || reply == AiAnswered(None) || reply == AiAnswered(Some("")) ==>
      s.newsContent == Some(NoNews)
    ensures |p.articles| > 0 && reply.AiAnswered? && reply.text.Some? && reply.text.value != "" ==>
      s.newsContent == Some(reply.text.value)
    ensures s.newsContent.Some? ==> s.newsContent.value != ""
  {
    if |p.articles| > 0 then
      match reply
      case AiThrew => Summary(p.user, None)
      case AiAnswered(text) => Summary(p.user, Some(TextOr(text, NoNews)))
    else Summary(p.user, Some(NoNews))
  }

  datatype Email = Email(to: string, date: string, content: string)

  /** The digest e-mails, one per summary whose text is truthy (`!newsContent`
      skips null and the empty string), in summary order. */
  function Sends(summaries: seq<Summary>, today: string): (r: seq<Email>)
    ensures |r| <= |summaries|
    ensures forall e :: e in r <==>
      exists i :: 0 <= i < |summaries| && summaries[i].newsContent.Some? && summaries[i].newsContent.value != ""
        && e == Email(summaries[i].user.email, today, summaries[i].newsContent.value)
  {
    if |summaries| == 0 then []
    else
      var c := summaries[0].newsContent;
      var rest := Sends(summaries[1..], today);
      assert forall i :: 1 <= i < |summaries| ==> summaries[i] == summaries[1..][i - 1];
      if c.Some? && c.value != "" then [Email(summaries[0].user.email, today, c.value)] + rest
      else rest
  }

  /** How many summaries have a truthy text. */
  function WithContent(summaries: seq<Summary>): nat {
    if |summaries| == 0 then 0
    else (if summaries[0].newsContent.Some? && summaries[0].newsContent.value != "" then 1 else 0)
         + WithContent(summaries[1..])
  }

  /** One e-mail goes out per summary with text, and none for the others. */
  lemma {:induction false} SendsCount(summaries: seq<Summary>, today: string)
    ensures |Sends(summaries, today)| == WithContent(summaries)
  {
    if |summaries| > 0 {
      SendsCount(summaries[1..], today);
    }
  }

  datatype DigestRun =
    | NoUsers                                             // "No users found for news email"
    | Digest(prepared: seq<Prepared>, summaries: seq<Summary>, sent: seq<Email>)

  /** `sendDailyNewsSummary`. Fails when there are no users. Otherwise each
      user yields exactly one prepared entry and one summary, in user order,
      from that user's symbols and outcomes alone; a digest dated today goes
      to a user exactly when the summary text is not null. */
  function SendDailyNewsSummary(users: seq<User>, today: string, symbolsOf: string -> seq<string>,
                                outcomes: nat -> Outcomes): (r: DigestRun)
    ensures r.NoUsers? <==> |users| == 0
    ensures r.Digest? ==>
      && |r.prepared| == |users| && |r.summaries| == |users|
      && (forall i :: 0 <= i < |users| ==>
            && r.prepared[i] == PrepareUser(users[i], symbolsOf(users[i].email), outcomes(i))
            && r.summaries[i] == Summarize(r.prepared[i], outcomes(i).summary)
            && r.prepared[i].user == users[i]
            && |r.prepared[i].articles| <= MaxArticles
            && r.summaries[i].user == users[i]
            && (r.summaries[i].newsContent.None? <==>
                  |r.prepared[i].articles| > 0 && outcomes(i).summary.AiThrew?))
      && r.sent == Sends(r.summaries, today)
      && (forall e :: e in r.sent <==>
            exists i :: 0 <= i < |users| && r.summaries[i].newsContent.Some?
              && e == Email(users[i].email, today, r.summaries[i].newsContent.value))
  {
    if |users| == 0 then NoUsers
    else
      var prepared := seq(|users|, i requires 0 <= i < |users| => PrepareUser(users[i], symbolsOf(users[i].email), outcomes(i)));
      var summaries := seq(|users|, i requires 0 <= i < |users| => Summarize(prepared[i], outcomes(i).summary));
      assert forall i :: 0 <= i < |users| ==> summaries[i] == Summarize(prepared[i], outcomes(i).summary);
      Digest(prepared, summaries, Sends(summaries, today))
  }

  /** A user left without articles is still sent a digest: the no-news
      sentence is not null. */
  lemma UserWithoutArticlesGetsNoNewsDigest(users: seq<User>, today: string, symbolsOf: string -> seq<string>,
                                            outcomes: nat -> Outcomes, i: nat)
    requires i < |users|
    requires |PrepareUser(users[i], symbolsOf(users[i].email), outcomes(i)).articles| == 0
    ensures Email(users[i].email, today, NoNews) in SendDailyNewsSummary(users, today, symbolsOf, outcomes).sent
  {
    var r := SendDailyNewsSummary(users, today, symbolsOf, outcomes);
    var p := PrepareUser(users[i], symbolsOf(users[i].email), outcomes(i));
    assert r.prepared[i] == p;
    assert r.summaries[i] == Summarize(p, outcomes(i).summary);
    assert r.summaries[i].newsContent == Some(NoNews);
  }

  /** Users are isolated from one another: whatever happens to the other
      users' requests, a user's articles and summary depend only on that
      user's own symbols and outcomes. */
  lemma OtherUsersDoNotMatter(users: seq<User>, today: string, symbolsOf: string -> seq<string>,
                              o1: nat -> Outcomes, o2: nat -> Outcomes, i: nat)
    requires i < |users|
    requires o1(i) == o2(i)
    ensures var r1, r2 := SendDailyNewsSummary(users, today, symbolsOf, o1), SendDailyNewsSummary(users, today, symbolsOf, o2);
      r1.prepared[i] == r2.prepared[i] && r1.summaries[i] == r2.summaries[i]
  {
  }
}

=== FILE: market_data.dfy ===
/**
 The decisions both the add action and the price-refresh job make about one
 symbol's market data: which fields of the watchlist entry a quote reply and
 a basic-financials reply set, to what, and when the processing throws.

 The two HTTP replies are inputs. Numbers are reals (NaN is not modelled) and
 each formatted string is kept as the number it shows plus the sign decision
 the formatting makes.
 */
module MarketData {
  import opened Common

  /** A JSON field that should hold a number: absent, `null`, or a number. */
  datatype JsNumber = Undefined | Null | Num(value: real) {

    /** JavaScript truthiness: `undefined`, `null` and `0` are falsy. */
    predicate Truthy() {
      Num? && value != 0.0
    }
  }

  /** The real-time quote reply. */
  datatype QuoteReply =
    | QuoteNotOk                                   // `response.ok` is false
    | QuoteBadJson                                 // `response.json()` rejects
    | QuoteNull                                    // the body is `null`
    | Quote(c: JsNumber, d: JsNumber, dp: JsNumber)

  /** The `metric` object of the basic-financials reply. */
  datatype MetricFields = MetricFields(marketCapitalization: JsNumber, peBasicExclExtraTTM: JsNumber)

  /** The basic-financials reply. */
  datatype MetricsReply =
    | MetricsNotOk
    | MetricsBadJson
    | MetricsNull
    | Metrics(metric: Option<MetricFields>)        // None: `metric` missing or null

  /** The two requests are issued together; if either `fetch` rejects, so does
      the pair. */
  datatype FetchOutcome = FetchThrew | Replied(quote: QuoteReply, metrics: MetricsReply)

  /** A formatted field: the amount it shows and the decisions behind its text. */
  datatype Display =
    | Dollars(amount: real)                    // "$" then two decimals
    | SignedDollars(plus: bool, amount: real)  // "+" when `plus`, then "$" and two decimals
    | Billions(amount: real)                   // "$", two decimals, "B"
    | Decimal2(amount: real)                   // two decimals

  const OneBillion: real := 1000000000.0

  /** One field of an update payload: not assigned at all, or assigned a value
      that may be `null`. A key assigned `null` is still a key. */
  datatype Patch<+T> = Keep | Put(value: Option<T>) {

    /** The field's value when it starts out `null`. */
    function OrNull(): Option<T> {
      if Put? then value else None
    }

    /** The field's value after patching `prior`. */
    function Over(prior: Option<T>): Option<T> {
      if Put? then value else prior
    }
  }

  /** The object the source builds field by field (`updateData`, `stockData`). */
  datatype Record = Record(
    currentPrice: Patch<real>,
    changePercent: Patch<real>,
    priceFormatted: Patch<Display>,
    changeFormatted: Patch<Display>,
    marketCap: Patch<Display>,
    peRatio: Patch<Display>)
  {
    /** `Object.keys(record).length > 0` */
    predicate HasKeys() {
      || currentPrice.Put?
      || changePercent.Put?
      || priceFormatted.Put?
      || changeFormatted.Put?
      || marketCap.Put?
      || peRatio.Put?
    }
  }

  const Blank: Record := Record(Keep, Keep, Keep, Keep, Keep, Keep)

  /** The record as far as processing got, and whether processing threw. */
  datatype Derived = Derived(record: Record, threw: bool)

  /** Quote processing: the four price fields are assigned when the reply is
      ok and `c` is defined. With `c` null the first two assignments happen
      and then formatting the price throws. */
  function ApplyQuote(q: QuoteReply, rec: Record): Derived {
    match q
    case QuoteNotOk => Derived(rec, false)
    case QuoteBadJson => Derived(rec, true)
    case QuoteNull => Derived(rec, false)
    case Quote(c, d, dp) =>
      if c.Undefined? then Derived(rec, false)
      else
        var numbers := rec.(
          currentPrice := Put(if c.Num? then Some(c.value) else None),
          changePercent := Put(Some(if dp.Truthy() then dp.value else 0.0)));
        if c.Null? then Derived(numbers, true)
        else
          Derived(numbers.(
            priceFormatted := Put(Some(Dollars(c.value))),
            changeFormatted := Put(if d.Truthy() then Some(SignedDollars(d.value >= 0.0, d.value)) else None)),
            false)
  }

  /** Metrics processing: both fields are assigned, possibly `null`, when the
      reply is ok and carries a `metric` object. */
  function ApplyMetrics(m: MetricsReply, rec: Record): Derived {
    match m
    case MetricsNotOk => Derived(rec, false)
    case MetricsBadJson => Derived(rec, true)
    case MetricsNull => Derived(rec, false)
    case Metrics(None) => Derived(rec, false)
    case Metrics(Some(f)) =>
      var cap := f.marketCapitalization;
      var pe := f.peBasicExclExtraTTM;
      Derived(rec.(
        marketCap := Put(if cap.Truthy() then Some(Billions(cap.value / OneBillion)) else None),
        peRatio := Put(if pe.Truthy() then Some(Decimal2(pe.value)) else None)),
        false)
  }

  // ---------------------------------------------------------------------------
  // What the replies decide, stated reply by reply
  // ---------------------------------------------------------------------------

  /** The quote reply assigns the price fields. */
  predicate QuoteAssigns(q: QuoteReply) {
    q.Quote? && !q.c.Undefined?
  }

  /** Processing the quote reply throws. */
  predicate QuoteThrows(q: QuoteReply) {
    q.QuoteBadJson? || (q.Quote? && q.c.Null?)
  }

  /** The metrics reply assigns the two fundamentals fields. */
  predicate MetricsAssign(m: MetricsReply) {
    m.Metrics? && m.metric.Some?
  }

  /** Everything done with one symbol's replies: quote first, then metrics,
      stopping at the first throw. The price fields are set only from an ok
      quote whose `c` is defined; the change percentage falls back to 0 when
      `dp` is falsy; the change text is null when `d` is falsy and carries a
      '+' exactly when `d` is positive; the fundamentals fields are set when
      nothing threw before them and the metrics reply carries a `metric`
      object, each null when its number is falsy. */
  function Derive(o: FetchOutcome): (r: Derived)
    ensures r.threw <==>
      o.FetchThrew? || QuoteThrows(o.quote) || o.metrics.MetricsBadJson?
    ensures o.FetchThrew? ==> r.record == Blank
    ensures o.Replied? ==>
      var q, m, rec := o.quote, o.metrics, r.record;
      && (rec.currentPrice.Put? <==> QuoteAssigns(q))
      && (rec.changePercent.Put? <==> QuoteAssigns(q))
      && (QuoteAssigns(q) ==>
            && rec.currentPrice.value == (if q.c.Num? then Some(q.c.value) else None)
            && rec.changePercent == Put(Some(if q.dp.Truthy() then q.dp.value else 0.0)))
      && (rec.priceFormatted.Put? <==> q.Quote? && q.c.Num?)
      && (rec.changeFormatted.Put? <==> q.Quote? && q.c.Num?)
      && (q.Quote? && q.c.Num? ==>
            && rec.priceFormatted == Put(Some(Dollars(q.c.value)))
            && (rec.changeFormatted.value.None? <==> !q.d.Truthy())
            && (q.d.Truthy() ==> rec.changeFormatted.value.value == SignedDollars(q.d.value > 0.0, q.d.value)))
      && (rec.marketCap.Put? <==> !QuoteThrows(q) && MetricsAssign(m))
      && (rec.peRatio.Put? <==> !QuoteThrows(q) && MetricsAssign(m))
      && (!QuoteThrows(q) && MetricsAssign(m) ==>
            var cap, pe := m.metric.value.marketCapitalization, m.metric.value.peBasicExclExtraTTM;
            && rec.marketCap.value == (if cap.Truthy() then Some(Billions(cap.value / OneBillion)) else None)
            && rec.peRatio.value == (if pe.Truthy() then Some(Decimal2(pe.value)) else None))
  {
    match o
    case FetchThrew => Derived(Blank, true)
    case Replied(q, m) =>
      var afterQuote := ApplyQuote(q, Blank);
      if afterQuote.threw then afterQuote else ApplyMetrics(m, afterQuote.record)
  }

  /** The refresh job records an update for a symbol exactly when nothing threw
      and one of the two replies assigned fields; failed requests (a rejected
      fetch, or two replies that are not ok) never do. */
  predicate Contributes(o: FetchOutcome)
    ensures Contributes(o) <==>
      && o.Replied?
      && !QuoteThrows(o.quote)
      && !o.metrics.MetricsBadJson?
      && (QuoteAssigns(o.quote) || MetricsAssign(o.metrics))
  {
    var d := Derive(o);
    !d.threw && d.record.HasKeys()
  }
}

=== FILE: price_refresh.dfy ===
/**
 The price-refresh job: collect the distinct symbols of all watchlists, fetch
 quote and metrics for each in batches of ten, keep an update record for each
 symbol that yielded fields, and apply each record to every entry holding
 that symbol, counting the entries that changed.

 The replies for each symbol, whether the API key is configured, whether the
 database can be reached, and which per-symbol writes throw are inputs.
 */
module PriceRefresh {
  import opened Common
  import opened MarketData
  import opened Watchlist
  import opened Batching

  /** The symbols held by any user. */
  function SymbolsIn(store: Store): set<string> {
    set k | k in store :: k.symbol
  }

  lemma SymbolsOfEmptyStore(store: Store)
    ensures |SymbolsIn(store)| == 0 <==> |store| == 0
  {
    if |store| > 0 {
      var k :| k in store;
      assert k.symbol in SymbolsIn(store);
    }
  }

  /** `Watchlist.distinct('symbol')`: every symbol of the store once, in an
      order the database chooses. */
  method DistinctSymbols(store: Store) returns (symbols: seq<string>)
    ensures NoDuplicates(symbols)
    ensures forall x :: x in symbols <==> x in SymbolsIn(store)
    ensures |symbols| == |SymbolsIn(store)|
  {
    symbols := [];
    var pending := SymbolsIn(store);
    while pending != {}
      invariant NoDuplicates(symbols)
      invariant forall x :: x in symbols ==> x !in pending
      invariant forall x :: x in SymbolsIn(store) <==> x in symbols || x in pending
      invariant |symbols| + |pending| == |SymbolsIn(store)|
      decreases |pending|
    {
      var x :| x in pending;
      symbols := symbols + [x];
      pending := pending - {x};
    }
  }

  // ---------------------------------------------------------------------------
  // Fetching
  // ---------------------------------------------------------------------------

  /** The reference `updates` object: a record for each symbol that
      contributes, keyed by symbol. */
  function UpdatesFor(symbols: set<string>, fetch: string -> FetchOutcome): map<string, Record> {
    map x | x in symbols && Contributes(fetch(x)) :: Derive(fetch(x)).record
  }

  lemma UpdatesForStep(covered: seq<string>, symbol: string, fetch: string -> FetchOutcome)
    ensures var before := UpdatesFor((set x | x in covered), fetch);
      UpdatesFor((set x | x in covered + [symbol]), fetch) ==
        if Contributes(fetch(symbol)) then before[symbol := Derive(fetch(symbol)).record] else before
  {
    assert (set x | x in covered + [symbol]) == (set x | x in covered) + {symbol};
  }

  lemma UpdatesForUnion(a: seq<string>, b: seq<string>, fetch: string -> FetchOutcome)
    ensures UpdatesFor((set x | x in a + b), fetch) ==
      UpdatesFor((set x | x in a), fetch) + UpdatesFor((set x | x in b), fetch)
  {
    assert (set x | x in a + b) == (set x | x in a) + (set x | x in b);
  }

  /** One batch: every symbol of the batch is processed, and a symbol that
      throws is skipped without touching the others. */
  method FetchBatch(batch: seq<string>, fetch: string -> FetchOutcome) returns (updates: map<string, Record>)
    ensures updates == UpdatesFor((set x | x in batch), fetch)
  {
    updates := map[];
    var j := 0;
    while j < |batch|
      invariant 0 <= j <= |batch|
      invariant updates == UpdatesFor((set x | x in batch[..j]), fetch)
    {
      var symbol := batch[j];
      UpdatesForStep(batch[..j], symbol, fetch);
      var d := Derive(fetch(symbol));
      if !d.threw && d.record.HasKeys() {
        updates := updates[symbol := d.record];
      }
      assert batch[..j + 1] == batch[..j] + [symbol];
      j := j + 1;
    }
    assert batch[..j] == batch;
  }

  /** The `fetch-prices` step: the batches in order, each processed in full
      before the next. A symbol is recorded exactly when nothing threw for it
      and a field was assigned. */
  method FetchPrices(symbols: seq<string>, fetch: string -> FetchOutcome)
    returns (updates: map<string, Record>, trace: seq<Event<string>>)
    ensures forall x :: x in updates <==> x in symbols && Contributes(fetch(x))
    ensures forall x :: x in updates ==> updates[x] == Derive(fetch(x)).record
    ensures trace == Schedule(symbols)
  {
    var batches;
    batches, trace := RunBatches(symbols);
    BatchesPartition(symbols);
    updates := map[];
    ghost var covered: seq<string> := [];
    var k := 0;
    while k < |batches|
      invariant 0 <= k <= |batches|
      invariant covered + Flatten(batches[k..]) == symbols
      invariant updates == UpdatesFor((set x | x in covered), fetch)
    {
      assert batches[k..][1..] == batches[k + 1..];
      var found := FetchBatch(batches[k], fetch);
      UpdatesForUnion(covered, batches[k], fetch);
      updates := updates + found;
      covered := covered + batches[k];
      k := k + 1;
    }
  }

  // ---------------------------------------------------------------------------
  // Writing
  // ---------------------------------------------------------------------------

  /** An entry after `$set` with an update record. */
  function Patched(e: Entry, r: Record): Entry {
    Entry(e.company,
          r.currentPrice.Over(e.currentPrice), r.changePercent.Over(e.changePercent),
          r.priceFormatted.Over(e.priceFormatted), r.changeFormatted.Over(e.changeFormatted),
          r.marketCap.Over(e.marketCap), r.peRatio.Over(e.peRatio))
  }

  /** The entries `updateMany({ symbol }, { $set: r })` actually changes. */
  function ChangedBy(store: Store, symbol: string, r: Record): set<Key> {
    set k | k in store && k.symbol == symbol && Patched(store[k], r) != store[k]
  }

  /** `updateMany({ symbol }, { $set: r })`: the store afterwards and its
      `modifiedCount`, the number of entries whose contents changed. */
  function UpdateMany(store: Store, symbol: string, r: Record): (result: (Store, nat))
    ensures result.0.Keys == store.Keys
    ensures forall k :: k in store && k.symbol == symbol ==> result.0[k] == Patched(store[k], r)
    ensures forall k :: k in store && k.symbol != symbol ==> result.0[k] == store[k]
    ensures forall k :: k in store ==> result.0[k].company == store[k].company
    ensures result.1 == |set k | k in store && result.0[k] != store[k]|
    ensures result.1 <= |store|
    ensures result.1 == 0 <==> result.0 == store
  {
    ModifiedCountMeansChange(store, symbol, r);
    assert (set k | k in store && PatchSymbol(store, symbol, r)[k] != store[k]) == ChangedBy(store, symbol, r);
    (PatchSymbol(store, symbol, r), |ChangedBy(store, symbol, r)|)
  }

  /** Every entry of `symbol` patched with `r`. */
  function PatchSymbol(store: Store, symbol: string, r: Record): Store {
    map k | k in store :: if k.symbol == symbol then Patched(store[k], r) else store[k]
  }

  /** The changed entries are entries of the store, and there are none exactly
      when the patch leaves the store as it was. */
  lemma ModifiedCountMeansChange(store: Store, symbol: string, r: Record)
    ensures |ChangedBy(store, symbol, r)| <= |store|
    ensures |ChangedBy(store, symbol, r)| == 0 <==> PatchSymbol(store, symbol, r) == store
  {
    var after := PatchSymbol(store, symbol, r);
    var changed := ChangedBy(store, symbol, r);
    SubsetSize(changed, store.Keys);
    if |changed| == 0 {
      forall k | k in store ensures after[k] == store[k] {
        assert k !in changed;
      }
      assert after == store;
    } else {
      var k :| k in changed;
      assert after[k] != store[k];
    }
  }

  lemma {:induction false} SubsetSize<T>(a: set<T>, b: set<T>)
    requires a <= b
    ensures |a| <= |b|
    decreases |b|
  {
    if a != {} {
      var x :| x in a;
      SubsetSize(a - {x}, b - {x});
    }
  }

  /** The store once the writes for the symbols in `applied` have succeeded. */
  function ApplyWrites(store: Store, updates: map<string, Record>, applied: set<string>): Store {
    map k | k in store ::
      if k.symbol in applied && k.symbol in updates then Patched(store[k], updates[k.symbol]) else store[k]
  }

  /** The entries those writes change. */
  function Modified(store: Store, updates: map<string, Record>, applied: set<string>): set<Key> {
    set k | k in store && k.symbol in applied && k.symbol in updates
                       && Patched(store[k], updates[k.symbol]) != store[k]
  }

  lemma ApplyStep(store: Store, updates: map<string, Record>, applied: set<string>, symbol: string)
    requires symbol in updates && symbol !in applied
    ensures UpdateMany(ApplyWrites(store, updates, applied), symbol, updates[symbol]).0
         == ApplyWrites(store, updates, applied + {symbol})
  {
    var current := ApplyWrites(store, updates, applied);
    var next := UpdateMany(current, symbol, updates[symbol]).0;
    var target := ApplyWrites(store, updates, applied + {symbol});
    assert next.Keys == target.Keys;
    forall k | k in next
      ensures next[k] == target[k]
    {
      if k.symbol == symbol {
        assert current[k] == store[k];
      }
    }
  }

  lemma ChangedBeforeWrite(store: Store, updates: map<string, Record>, applied: set<string>, symbol: string)
    requires symbol in updates && symbol !in applied
    ensures ChangedBy(ApplyWrites(store, updates, applied), symbol, updates[symbol])
         == ChangedBy(store, symbol, updates[symbol])
  {
    var current := ApplyWrites(store, updates, applied);
    forall k | k in current && k.symbol == symbol
      ensures current[k] == store[k]
    {
    }
  }

  lemma ModifiedSplit(store: Store, updates: map<string, Record>, applied: set<string>, symbol: string)
    requires symbol in updates && symbol !in applied
    ensures Modified(store, updates, applied + {symbol})
         == Modified(store, updates, applied) + ChangedBy(store, symbol, updates[symbol])
    ensures Modified(store, updates, applied) !! ChangedBy(store, symbol, updates[symbol])
  {
  }

  /** Writing one more symbol adds the entries changed for it, which no
      earlier write touched. */
  lemma ModifiedStep(store: Store, updates: map<string, Record>, applied: set<string>, symbol: string)
    requires symbol in updates && symbol !in applied
    ensures var current := ApplyWrites(store, updates, applied);
      && UpdateMany(current, symbol, updates[symbol]).0 == ApplyWrites(store, updates, applied + {symbol})
      && |Modified(store, updates, applied + {symbol})|
           == |Modified(store, updates, applied)| + UpdateMany(current, symbol, updates[symbol]).1
  {
    ApplyStep(store, updates, applied, symbol);
    ChangedBeforeWrite(store, updates, applied, symbol);
    ModifiedSplit(store, updates, applied, symbol);
  }

  lemma NothingApplied(store: Store, updates: map<string, Record>)
    ensures ApplyWrites(store, updates, {}) == store
    ensures Modified(store, updates, {}) == {}
  {
  }

  /** The `update-watchlists` step: one `updateMany` per recorded symbol, in
      whatever order the record's keys come; a write that throws is skipped.
      Every write that succeeds patches every entry of its symbol, nothing
      else changes, and the count is the number of entries that changed. */
  method WriteUpdates(store: Store, updates: map<string, Record>, failedWrites: set<string>)
    returns (store': Store, updatedCount: nat, totalSymbols: nat)
    ensures store' == ApplyWrites(store, updates, updates.Keys - failedWrites)
    ensures updatedCount == |Modified(store, updates, updates.Keys - failedWrites)|
    ensures totalSymbols == |updates|
  {
    store', updatedCount := store, 0;
    var pending := updates.Keys;
    ghost var applied: set<string> := {};
    NothingApplied(store, updates);
    while pending != {}
      invariant pending <= updates.Keys
      invariant applied == (updates.Keys - pending) - failedWrites
      invariant store' == ApplyWrites(store, updates, applied)
      invariant updatedCount == |Modified(store, updates, applied)|
      decreases |pending|
    {
      var symbol :| symbol in pending;
      if symbol !in failedWrites {
        ModifiedStep(store, updates, applied, symbol);
        var (next, modifiedCount) := UpdateMany(store', symbol, updates[symbol]);
        store', updatedCount := next, updatedCount + modifiedCount;
        applied := applied + {symbol};
      }
      pending := pending - {symbol};
    }
    assert applied == updates.Keys - failedWrites;
    totalSymbols := |updates|;
  }

  // ---------------------------------------------------------------------------
  // The job
  // ---------------------------------------------------------------------------

  datatype RefreshResult =
    | NoSymbols                                        // "No symbols to update"
    | Refreshed(updatedCount: nat, totalSymbols: nat)  // "Updated prices for ... across ... symbols"
    | RefreshFailed                                    // "Failed to update watchlist prices"

  datatype RefreshRun = RefreshRun(store: Store, result: RefreshResult, trace: seq<Event<string>>)

  /** `updateWatchlistPrices`. With an unreachable database or no API key the
      job fails before fetching or writing; with no symbols it succeeds
      without doing either. Otherwise every symbol is fetched once, in batches
      of ten with a pause only between batches, the entries of every
      contributing symbol whose write succeeds are patched, and nothing else
      changes. */
  method UpdateWatchlistPrices(store: Store, dbReachable: bool, keyConfigured: bool,
                               fetch: string -> FetchOutcome, failedWrites: set<string>)
    returns (run: RefreshRun)
    ensures !dbReachable ==> run == RefreshRun(store, RefreshFailed, [])
    ensures dbReachable && |store| == 0 ==> run == RefreshRun(store, NoSymbols, [])
    ensures dbReachable && |store| > 0 && !keyConfigured ==> run == RefreshRun(store, RefreshFailed, [])
    ensures run.result.Refreshed? <==> dbReachable && keyConfigured && |store| > 0
    ensures run.result.Refreshed? ==>
      var updates := UpdatesFor(SymbolsIn(store), fetch);
      var applied := updates.Keys - failedWrites;
      && run.result.totalSymbols == |updates|
      && run.result.updatedCount == |Modified(store, updates, applied)|
      && run.store == ApplyWrites(store, updates, applied)
      && NoDuplicates(Fetched(run.trace))
      && (forall x :: x in Fetched(run.trace) <==> x in SymbolsIn(store))
      && PauseCount(run.trace) == CeilDiv(|SymbolsIn(store)|, BatchSize) - 1
    ensures run.store.Keys == store.Keys
    ensures (forall x :: x in SymbolsIn(store) ==> !Contributes(fetch(x))) ==> run.store == store
  {
    if !dbReachable {
      return RefreshRun(store, RefreshFailed, []);
    }
    var symbols := DistinctSymbols(store);
    SymbolsOfEmptyStore(store);
    if |symbols| == 0 {
      return RefreshRun(store, NoSymbols, []);
    }
    assert |store| > 0;
    if !keyConfigured {
      return RefreshRun(store, RefreshFailed, []);
    }
    var updates, trace := FetchPrices(symbols, fetch);
    FetchedAreReference(store, symbols, updates, fetch);
    ScheduleCounts(symbols);
    var store', updatedCount, totalSymbols := WriteUpdates(store, updates, failedWrites);
    NoContributionNoWrite(store, fetch, updates.Keys - failedWrites);
    return RefreshRun(store', Refreshed(updatedCount, totalSymbols), trace);
  }

  /** The updates collected over the distinct symbols are the reference
      updates of the store's symbols. */
  lemma FetchedAreReference(store: Store, symbols: seq<string>, updates: map<string, Record>,
                            fetch: string -> FetchOutcome)
    requires forall x :: x in symbols <==> x in SymbolsIn(store)
    requires forall x :: x in updates <==> x in symbols && Contributes(fetch(x))
    requires forall x :: x in updates ==> updates[x] == Derive(fetch(x)).record
    ensures updates == UpdatesFor(SymbolsIn(store), fetch)
  {
  }

  /** Writes keep every key, and when no symbol contributes there is nothing
      to write. */
  lemma NoContributionNoWrite(store: Store, fetch: string -> FetchOutcome, applied: set<string>)
    ensures ApplyWrites(store, UpdatesFor(SymbolsIn(store), fetch), applied).Keys == store.Keys
    ensures (forall x :: x in SymbolsIn(store) ==> !Contributes(fetch(x))) ==>
      ApplyWrites(store, UpdatesFor(SymbolsIn(store), fetch), applied) == store
  {
    if forall x :: x in SymbolsIn(store) ==> !Contributes(fetch(x)) {
      assert UpdatesFor(SymbolsIn(store), fetch) == map[];
    }
  }
}

=== FILE: watchlist.dfy ===
/**
 The watchlist store and the four server actions over it: add, remove, list
 the caller's entries, and look up a user's symbols by e-mail.

 The store is the watchlist collection as a map keyed by (user id, symbol),
 so each user holds a symbol at most once. The session, the state of the
 database and the market-data replies are inputs; each action returns the new
 store together with the response the caller sees.
 */
module Watchlist {
  import opened Common
  import opened MarketData

  datatype Key = Key(userId: string, symbol: string)

  /** One watchlist document without its key; the price and fundamentals
      fields are null until market data sets them. */
  datatype Entry = Entry(
    company: string,
    currentPrice: Option<real>,
    changePercent: Option<real>,
    priceFormatted: Option<Display>,
    changeFormatted: Option<Display>,
    marketCap: Option<Display>,
    peRatio: Option<Display>)

  type Store = map<Key, Entry>

  /** The result of the session lookup. */
  datatype Session =
    | SessionThrew                // the lookup rejected
    | NoSession
    | SignedIn(userId: string)

  /** The user id of an authenticated session: `session?.user?.id` when truthy. */
  function SessionUser(s: Session): Option<string> {
    if s.SignedIn? && s.userId != "" then Some(s.userId) else None
  }

  /** How the database behaves during one action. */
  datatype Db =
    | Available
    | Unreachable                 // connecting throws, or the connection has no handle
    | WritesFail                  // connected and readable, but writes throw

  datatype Response = Success(message: string) | Failure(error: string)

  /** The store after an action, and the action's response. */
  datatype Change = Change(store: Store, response: Response)

  const NotAuthenticated := "User not authenticated"
  const AlreadyInWatchlist := "Stock already in watchlist"
  const AddFailed := "Failed to add stock to watchlist"
  const Added := "Stock added to watchlist successfully"
  const NotInWatchlist := "Stock not found in watchlist"
  const RemoveFailed := "Failed to remove stock from watchlist"
  const Removed := "Stock removed from watchlist successfully"
  const ListFailed := "Failed to fetch watchlist"

  /** Every key names a signed-in user and an upper-cased symbol. */
  predicate Normalised(store: Store) {
    forall k :: k in store ==> k.userId != "" && IsUpperCase(k.symbol)
  }

  /** The fields a new entry starts with: what the market-data replies set
      when the API key is configured, null for everything else. */
  function StockData(keyConfigured: bool, market: FetchOutcome): (r: Record)
    ensures !keyConfigured || market.FetchThrew? ==> r == Blank
    ensures keyConfigured && market.Replied? ==>
      (r.currentPrice.Put? <==> QuoteAssigns(market.quote))
    ensures keyConfigured ==> r == Derive(market).record
  {
    if keyConfigured then Derive(market).record else Blank
  }

  function NewEntry(company: string, rec: Record): Entry {
    Entry(company, rec.currentPrice.OrNull(), rec.changePercent.OrNull(),
          rec.priceFormatted.OrNull(), rec.changeFormatted.OrNull(),
          rec.marketCap.OrNull(), rec.peRatio.OrNull())
  }

  /** An entry whose price and fundamentals fields are all null. */
  predicate BareEntry(e: Entry) {
    && e.currentPrice.None? && e.changePercent.None? && e.priceFormatted.None?
    && e.changeFormatted.None? && e.marketCap.None? && e.peRatio.None?
  }

  /** `addToWatchList(symbol, company)`. Fails without a session, when the
      database cannot be reached, when the user already holds the symbol in
      any letter case, or when saving throws; otherwise inserts exactly one
      entry under the upper-cased symbol. Market data is best effort: it
      never decides the response, and when it fails the new entry's fields
      are null. */
  function Add(store: Store, session: Session, db: Db, symbol: string, company: string,
               keyConfigured: bool, market: FetchOutcome): (r: Change)
    ensures r.response.Failure? ==> r.store == store
    ensures r.response.Success? <==>
      && SessionUser(session).Some?
      && db.Available?
      && Key(session.userId, Upper(symbol)) !in store
    ensures r.response == Failure(NotAuthenticated) <==>
      session.NoSession? || (session.SignedIn? && session.userId == "")
    ensures r.response == Failure(AlreadyInWatchlist) <==>
      SessionUser(session).Some? && !db.Unreachable? && Key(session.userId, Upper(symbol)) in store
    ensures r.response == Failure(AddFailed) <==>
      || session.SessionThrew?
      || (&& SessionUser(session).Some?
          && (db.Unreachable? || (db.WritesFail? && Key(session.userId, Upper(symbol)) !in store)))
    ensures r.response.Success? ==>
      var k := Key(session.userId, Upper(symbol));
      && r.response.message == Added
      && r.store.Keys == store.Keys + {k}
      && |r.store| == |store| + 1
      && r.store[k].company == company
      && (forall k' :: k' in store ==> r.store[k'] == store[k'])
      && (!keyConfigured || market.FetchThrew? ==> BareEntry(r.store[k]))
      && (keyConfigured ==> r.store[k] == NewEntry(company, Derive(market).record))
  {
    match SessionUser(session)
    case None =>
      Change(store, Failure(if session.SessionThrew? then AddFailed else NotAuthenticated))
    case Some(user) =>
      var k := Key(user, Upper(symbol));
      if db.Unreachable? then Change(store, Failure(AddFailed))
      else if k in store then Change(store, Failure(AlreadyInWatchlist))
      else if db.WritesFail? then Change(store, Failure(AddFailed))
      else Change(store[k := NewEntry(company, StockData(keyConfigured, market))], Success(Added))
  }

  /** `removeFromWatchList(symbol)`. Fails without a session or a working
      database, and with "not found" when the user does not hold the
      upper-cased symbol; otherwise deletes exactly that entry. */
  function Remove(store: Store, session: Session, db: Db, symbol: string): (r: Change)
    ensures r.response.Failure? ==> r.store == store
    ensures r.response.Success? <==>
      && SessionUser(session).Some?
      && db.Available?
      && Key(session.userId, Upper(symbol)) in store
    ensures r.response == Failure(NotAuthenticated) <==>
      session.NoSession? || (session.SignedIn? && session.userId == "")
    ensures r.response == Failure(NotInWatchlist) <==>
      SessionUser(session).Some? && db.Available? && Key(session.userId, Upper(symbol)) !in store
    ensures r.response == Failure(RemoveFailed) <==>
      session.SessionThrew? || (SessionUser(session).Some? && !db.Available?)
    ensures r.response.Success? ==>
      && r.response.message == Removed
      && r.store.Keys == store.Keys - {Key(session.userId, Upper(symbol))}
      && |r.store| == |store| - 1
      && (forall k :: k in r.store ==> r.store[k] == store[k])
  {
    match SessionUser(session)
    case None =>
      Change(store, Failure(if session.SessionThrew? then RemoveFailed else NotAuthenticated))
    case Some(user) =>
      var k := Key(user, Upper(symbol));
      if !db.Available? then Change(store, Failure(RemoveFailed))
      else if k !in store then Change(store, Failure(NotInWatchlist))
      else Change(store - {k}, Success(Removed))
  }

  /** The response of the list action. */
  datatype Listing = Listed(entries: map<Key, Entry>) | NotListed(error: string)

  /** `getUserSpecificWatchListByEmail()`: exactly the entries of the session
      user. */
  function List(store: Store, session: Session, db: Db): (r: Listing)
    ensures r.Listed? <==> SessionUser(session).Some? && !db.Unreachable?
    ensures r == NotListed(NotAuthenticated) <==>
      session.NoSession? || (session.SignedIn? && session.userId == "")
    ensures r.Listed? ==>
      forall k :: k in r.entries <==> k in store && k.userId == session.userId
    ensures r.Listed? ==>
      forall k :: k in r.entries ==> r.entries[k] == store[k]
  {
    match SessionUser(session)
    case None => NotListed(if session.SessionThrew? then ListFailed else NotAuthenticated)
    case Some(user) =>
      if db.Unreachable? then NotListed(ListFailed)
      else Listed(map k | k in store && k.userId == user :: store[k])
  }

  // ---------------------------------------------------------------------------
  // Symbols by e-mail
  // ---------------------------------------------------------------------------

  /** A document of the auth library's user collection. `id` and `oid` (the
      string form of `_id`) are "" when missing. */
  datatype UserDoc = UserDoc(oid: string, id: string, email: string)

  /** `findOne({ email })`: the first user stored with exactly this e-mail. */
  function FindByEmail(users: seq<UserDoc>, email: string): (r: Option<UserDoc>)
    ensures r.None? <==> forall i :: 0 <= i < |users| ==> users[i].email != email
    ensures r.Some? ==> r.value.email == email
    ensures r.Some? ==>
      (exists i :: 0 <= i < |users| && users[i] == r.value && forall j :: 0 <= j < i ==> users[j].email != email)
  {
    if |users| == 0 then None
    else if users[0].email == email then Some(users[0])
    else
      var rest := FindByEmail(users[1..], email);
      assert forall i :: 1 <= i < |users| ==> users[i] == users[1..][i - 1];
      rest
  }

  /** `user.id || String(user._id || '')` */
  function UserIdOf(u: UserDoc): string {
    if u.id != "" then u.id else u.oid
  }

  /** The symbols a user holds. */
  function SymbolsOf(store: Store, userId: string): set<string> {
    set k | k in store && k.userId == userId :: k.symbol
  }

  /** `getWatchlistSymbolsByEmail(email)`. Never fails: an empty e-mail, an
      unreachable database, no user with the lower-cased e-mail, or a user
      without an id all give the empty list; otherwise the symbols of the
      first user with that e-mail. */
  function SymbolsByEmail(users: seq<UserDoc>, store: Store, db: Db, email: string): (r: set<string>)
    ensures email == "" || db.Unreachable? ==> r == {}
    ensures FindByEmail(users, Lower(email)).None? ==> r == {}
    ensures email != "" && !db.Unreachable? && FindByEmail(users, Lower(email)).Some? ==>
      var userId := UserIdOf(FindByEmail(users, Lower(email)).value);
      r == if userId == "" then {} else SymbolsOf(store, userId)
  {
    if email == "" || db.Unreachable? then {}
    else
      match FindByEmail(users, Lower(email))
      case None => {}
      case Some(u) =>
        var userId := UserIdOf(u);
        if userId == "" then {} else SymbolsOf(store, userId)
  }

  // ---------------------------------------------------------------------------
  // Properties across actions
  // ---------------------------------------------------------------------------

  /** Adding a symbol and then adding it again, in any letter case, fails the
      second time with "already in watchlist" and changes nothing. */
  lemma AddTwiceFails(store: Store, session: Session, db: Db, db2: Db, s1: string, s2: string,
                      c1: string, c2: string, k1: bool, k2: bool, m1: FetchOutcome, m2: FetchOutcome)
    requires Add(store, session, db, s1, c1, k1, m1).response.Success?
    requires EqualIgnoringCase(s1, s2)
    requires !db2.Unreachable?
    ensures var after := Add(store, session, db, s1, c1, k1, m1).store;
      Add(after, session, db2, s2, c2, k2, m2) == Change(after, Failure(AlreadyInWatchlist))
  {
    UpperEqualIffEqualIgnoringCase(s1, s2);
  }

  /** A quote whose `c` is null makes price formatting throw part-way; the
      action swallows the error and saves what was assigned before it: a null
      price, the change percentage `dp || 0`, and null for every other field. */
  lemma AddKeepsFieldsSetBeforeThrow(store: Store, session: Session, symbol: string, company: string,
                                     d: JsNumber, dp: JsNumber, metrics: MetricsReply)
    requires Add(store, session, Available, symbol, company, true, Replied(Quote(Null, d, dp), metrics)).response.Success?
    ensures var e := Add(store, session, Available, symbol, company, true, Replied(Quote(Null, d, dp), metrics))
                       .store[Key(session.userId, Upper(symbol))];
      && e.company == company
      && e.currentPrice == None
      && e.changePercent == Some(if dp.Truthy() then dp.value else 0.0)
      && e.priceFormatted == None && e.changeFormatted == None
      && e.marketCap == None && e.peRatio == None
  {
  }

  /** Removing what was just added, in any letter case, succeeds and restores
      the store. */
  lemma {:induction false} RemoveUndoesAdd(store: Store, session: Session, s1: string, s2: string,
                                           company: string, key: bool, market: FetchOutcome)
    requires Add(store, session, Available, s1, company, key, market).response.Success?
    requires EqualIgnoringCase(s1, s2)
    ensures var after := Add(store, session, Available, s1, company, key, market).store;
      Remove(after, session, Available, s2) == Change(store, Success(Removed))
  {
    UpperEqualIffEqualIgnoringCase(s1, s2);
    var k := Key(session.userId, Upper(s1));
    var after := Add(store, session, Available, s1, company, key, market).store;
    assert after - {k} == store;
  }

  /** After a successful remove the caller's listing no longer holds the
      symbol and is otherwise what it was. */
  lemma RemoveThenList(store: Store, session: Session, db: Db, symbol: string)
    requires Remove(store, session, db, symbol).response.Success?
    ensures var k := Key(session.userId, Upper(symbol));
      var before := List(store, session, db);
      var after := List(Remove(store, session, db, symbol).store, session, db);
      && before.Listed? && after.Listed?
      && k in before.entries
      && after.entries == before.entries - {k}
  {
    var k := Key(session.userId, Upper(symbol));
    var before := List(store, session, db);
    var after := List(Remove(store, session, db, symbol).store, session, db);
    assert after.entries == before.entries - {k};
  }

  /** Every action keeps the store normalised. */
  lemma ActionsPreserveNormalised(store: Store, session: Session, db: Db, symbol: string,
                                  company: string, key: bool, market: FetchOutcome)
    requires Normalised(store)
    ensures Normalised(Add(store, session, db, symbol, company, key, market).store)
    ensures Normalised(Remove(store, session, db, symbol).store)
  {
    UpperIsNormal(symbol);
  }

  /** The e-mail lookup lower-cases its argument, so two spellings of an
      address that differ only in letter case find the same symbols. */
  lemma SymbolsByEmailIgnoresCase(users: seq<UserDoc>, store: Store, db: Db, a: string, b: string)
    requires EqualIgnoringCase(a, b)
    ensures SymbolsByEmail(users, store, db, a) == SymbolsByEmail(users, store, db, b)
  {
    LowerEqualIffEqualIgnoringCase(a, b);
  }
}

=== FILE: welcome.dfy ===
/**
 The sign-up e-mail job: describe the new user's profile to an AI step, take
 the introduction it writes (or a fixed sentence when it writes none), and
 send the welcome e-mail.

 The profile is kept as labelled lines rather than as the indented text the
 prompt receives; the AI step is an input.
 */
module Welcome {
  import opened Common

  /** The payload of the user-created event. */
  datatype SignUpEvent = SignUpEvent(
    email: string,
    name: string,
    country: string,
    investmentGoals: string,
    riskTolerance: string,
    preferredIndustry: string)

  datatype ProfileLine = ProfileLine(heading: string, value: string)

  /** The four answers the profile is meant to convey. */
  datatype Answers = Answers(country: string, investmentGoals: string, riskTolerance: string,
                             preferredIndustry: string)

  function AnswersOf(e: SignUpEvent): Answers {
    Answers(e.country, e.investmentGoals, e.riskTolerance, e.preferredIndustry)
  }

  const CountryLabel := "Country"
  const GoalsLabel := "Investment Goals"
  const RiskLabel := "Risk Tolerance"
  const IndustryLabel := "Preferred Industry"

  /** The value on the first line carrying `heading`. */
  function ValueUnder(lines: seq<ProfileLine>, heading: string): Option<string> {
    if |lines| == 0 then None
    else if lines[0].heading == heading then Some(lines[0].value)
    else ValueUnder(lines[1..], heading)
  }

  /** What a reader of the profile learns: each answer read under its label. */
  function ReadProfile(lines: seq<ProfileLine>): Option<Answers> {
    var country := ValueUnder(lines, CountryLabel);
    var goals := ValueUnder(lines, GoalsLabel);
    var risk := ValueUnder(lines, RiskLabel);
    var industry := ValueUnder(lines, IndustryLabel);
    if country.Some? && goals.Some? && risk.Some? && industry.Some? then
      Some(Answers(country.value, goals.value, risk.value, industry.value))
    else None
  }

  /** The profile as the job writes it: the fourth line, which holds the
      preferred industry, repeats the "Investment Goals" label. */
  function ProfileAsWritten(e: SignUpEvent): seq<ProfileLine> {
    [ProfileLine(CountryLabel, e.country),
     ProfileLine(GoalsLabel, e.investmentGoals),
     ProfileLine(RiskLabel, e.riskTolerance),
     ProfileLine(GoalsLabel, e.preferredIndustry)]
  }

  /** The written profile conveys the country, the goals and the risk
      tolerance under their own labels, but the preferred industry under none:
      it appears as a second "Investment Goals" line, after the real goals. */
  lemma {:induction false} ProfileAsWrittenLosesIndustry(e: SignUpEvent)
    ensures ValueUnder(ProfileAsWritten(e), CountryLabel) == Some(e.country)
    ensures ValueUnder(ProfileAsWritten(e), GoalsLabel) == Some(e.investmentGoals)
    ensures ValueUnder(ProfileAsWritten(e), RiskLabel) == Some(e.riskTolerance)
    ensures ValueUnder(ProfileAsWritten(e), IndustryLabel).None?
    ensures ReadProfile(ProfileAsWritten(e)).None?
    ensures ProfileAsWritten(e)[1].heading == ProfileAsWritten(e)[3].heading
  {
    LabelsDiffer();
    var lines := ProfileAsWritten(e);
    var l1, l2, l3 := lines[1..], lines[2..], lines[3..];
    assert l1[1..] == l2 && l2[1..] == l3 && l3[1..] == [];
    assert ValueUnder(lines, GoalsLabel) == ValueUnder(l1, GoalsLabel) == Some(e.investmentGoals);
    assert ValueUnder(lines, RiskLabel) == ValueUnder(l1, RiskLabel) == ValueUnder(l2, RiskLabel)
        == Some(e.riskTolerance);
    assert ValueUnder(lines, IndustryLabel) == ValueUnder(l1, IndustryLabel) == ValueUnder(l2, IndustryLabel)
        == ValueUnder(l3, IndustryLabel) == ValueUnder(l3[1..], IndustryLabel) == None;
  }

  /** A concrete case: a growth investor preferring technology is described
      as having two investment goals. */
  lemma ProfileAsWrittenExample()
    ensures var e := SignUpEvent("a@b.c", "Ann", "US", "Growth", "High", "Technology");
      && ProfileAsWritten(e)[1] == ProfileLine("Investment Goals", "Growth")
      && ProfileAsWritten(e)[3] == ProfileLine("Investment Goals", "Technology")
  {
  }

  lemma LabelsDiffer()
    ensures CountryLabel != GoalsLabel && CountryLabel != RiskLabel && CountryLabel != IndustryLabel
    ensures GoalsLabel != RiskLabel && GoalsLabel != IndustryLabel && RiskLabel != IndustryLabel
  {
    assert CountryLabel[0] == 'C' && GoalsLabel[0] == 'I' && RiskLabel[0] == 'R' && IndustryLabel[0] == 'P';
  }

  /** The lines of a profile in which each answer has its own label. */
  function LabelledLines(x: Answers): seq<ProfileLine> {
    [ProfileLine(CountryLabel, x.country),
     ProfileLine(GoalsLabel, x.investmentGoals),
     ProfileLine(RiskLabel, x.riskTolerance),
     ProfileLine(IndustryLabel, x.preferredIndustry)]
  }

  lemma LabelledLinesReadBack(x: Answers)
    ensures ReadProfile(LabelledLines(x)) == Some(x)
  {
    LabelsDiffer();
    var lines := LabelledLines(x);
    var l1, l2, l3 := lines[1..], lines[2..], lines[3..];
    assert l1[1..] == l2 && l2[1..] == l3;
    assert ValueUnder(lines, CountryLabel) == Some(x.country);
    assert ValueUnder(lines, GoalsLabel) == ValueUnder(l1, GoalsLabel) == Some(x.investmentGoals);
    assert ValueUnder(lines, RiskLabel) == ValueUnder(l1, RiskLabel) == ValueUnder(l2, RiskLabel)
        == Some(x.riskTolerance);
    assert ValueUnder(lines, IndustryLabel) == ValueUnder(l1, IndustryLabel) == ValueUnder(l2, IndustryLabel)
        == ValueUnder(l3, IndustryLabel) == Some(x.preferredIndustry);
  }

  /** The profile with each answer under its own label; reading it back gives
      the four answers. */
  function Profile(e: SignUpEvent): (r: seq<ProfileLine>)
    ensures |r| == 4
    ensures forall i, j :: 0 <= i < j < |r| ==> r[i].heading != r[j].heading
    ensures ReadProfile(r) == Some(AnswersOf(e))
  {
    LabelsDiffer();
    LabelledLinesReadBack(AnswersOf(e));
    LabelledLines(AnswersOf(e))
  }

  const WelcomeFallback := "Thanks for joining Fenikkusu. You now have the tools to track markets and make smarter moves."

  datatype WelcomeRun =
    | InferFailed                                        // the AI step rejected; the job fails
    | WelcomeSent(to: string, name: string, intro: string)

  /** `sendSignUpEmail`, as written: the AI step is given the profile with the
      repeated label. The introduction is the AI text when it is non-empty
      and the fixed sentence otherwise; the e-mail goes to the event's
      address and name. */
  function SendSignUpEmail(e: SignUpEvent, infer: seq<ProfileLine> -> AiReply): (r: WelcomeRun)
    ensures r.InferFailed? <==> infer(ProfileAsWritten(e)).AiThrew?
    ensures r.WelcomeSent? ==>
      && r.to == e.email && r.name == e.name
      && r.intro != ""
      && (var text := infer(ProfileAsWritten(e)).text;
          && (text.None? || text == Some("") ==> r.intro == WelcomeFallback)
          && (text.Some? && text.value != "" ==> r.intro == text.value))
  {
    match infer(ProfileAsWritten(e))
    case AiThrew => InferFailed
    case AiAnswered(text) => WelcomeSent(e.email, e.name, TextOr(text, WelcomeFallback))
  }

  /** Because goals and industry share a label, swapping the two answers
      yields the same lines in another order: an AI step that does not go by
      line order writes the same intro for both sign-ups. The corrected
      profile tells them apart whenever the two answers differ. */
  lemma SwappedGoalsAndIndustryLookAlike(e: SignUpEvent, infer: multiset<ProfileLine> -> AiReply)
    ensures var swapped := e.(investmentGoals := e.preferredIndustry, preferredIndustry := e.investmentGoals);
      && multiset(ProfileAsWritten(e)) == multiset(ProfileAsWritten(swapped))
      && SendSignUpEmail(e, lines => infer(multiset(lines))) == SendSignUpEmail(swapped, lines => infer(multiset(lines)))
      && (e.investmentGoals != e.preferredIndustry ==> multiset(Profile(e)) != multiset(Profile(swapped)))
  {
    var swapped := e.(investmentGoals := e.preferredIndustry, preferredIndustry := e.investmentGoals);
    var a, b := ProfileAsWritten(e), ProfileAsWritten(swapped);
    assert a == [a[0], a[1], a[2], a[3]] && b == [a[0], a[3], a[2], a[1]];
    assert multiset(a) == multiset(b);
    if e.investmentGoals != e.preferredIndustry {
      LabelsDiffer();
      var line := ProfileLine(IndustryLabel, e.preferredIndustry);
      var p, q := Profile(e), Profile(swapped);
      assert p[3] == line;
      assert line in multiset(p);
      assert forall i :: 0 <= i < 4 ==> q[i] != line;
      assert line !in q;
    }
  }

  /** The intro never depends on the preferred industry's label: an AI step
      that looks for a "Preferred Industry" line in the job's profile never
      finds one, so the job sends what it sends for a profile without it. */
  lemma {:induction false} SendSignUpEmailNeverShowsIndustryLabel(e: SignUpEvent)
    ensures forall i :: 0 <= i < |ProfileAsWritten(e)| ==> ProfileAsWritten(e)[i].heading != IndustryLabel
    ensures var infer := (lines: seq<ProfileLine>) =>
        AiAnswered(Some(if |lines| == 4 && lines[3].heading == IndustryLabel then "B" else "A"));
      SendSignUpEmail(e, infer) == WelcomeSent(e.email, e.name, "A")
  {
    LabelsDiffer();
  }
}
